=== FILE: README.md ===
# A verified model of the `ecs.h` entity-component store

`ecs.h` is a small in-memory entity-component-system store written in C++.
It has three layers, and this Dafny project models each of them as
immutable data and pure functions:

- **The component pool.** `sparse_set_t<CType>` is a sparse set with three
  parallel arrays. `sparse_` maps an entity to a dense slot, or to
  `NULLVAL`. `dense_` holds the values. `dense_to_id_` maps each slot back
  to its entity. The pool supports `set` (overwrite in place or append),
  `get` (null when absent), the unchecked `get_ref` and swap-with-last
  `del`. This layer is `SparseSet` in `sparse_set.dfy`. A ghost `Abs` reads
  a valid pool as the map entity → value. Each operation on a valid pool
  that yields a valid pool is specified by what it does to that map. The
  exception is `del` as the source writes it, whose result is not a valid
  pool, so `SparseSet.DelAsWritten` is stated on the raw arrays.
- **The facade.** `ecs_t` keeps:
  - one pool per component type id;
  - each entity's mask, the set of its component ids (a `bitset` in the
    source);
  - the system masks;
  - the signature index `mask_groups_`, which maps a mask to the entities
    whose mask is exactly that mask.

  This layer is `Ecs` in `store.dfy`. Type ids from `get_c_id<T>` live in
  `TypeIds` in `type_ids.dfy`. The store invariant `Ecs.Inv` states three
  things. Every pool is a valid sparse set. Bit `c` of an entity's mask is
  set exactly when pool `c` holds that entity. Every created entity occurs
  exactly once in the index, in the group of its own mask.
- **Views.** `get_view` builds a target mask. `view_t::for_each` walks
  every group whose key is a superset of that mask, and hands the callback
  each entity's components through `get_ref`. This layer is `Views` in
  `view.dfy`. The model proves two facts about the walk. It visits exactly
  the matching entities, each once. Every `get_ref` it makes is on a
  present entity, and the store invariant is what discharges that.

`scenarios.dfy` replays the demo in `main.cpp` with integer components. It
also replays four usage runs:

- a view skips an entity whose signature is partial;
- attaching a component twice overwrites it in place;
- a pool-level delete of the middle entity, run twice. With the source's `del` the deleted entity still resolves, to the moved value. With the corrected delete it resolves to nothing. Both runs leave the other two entities intact;
- one movement pass moves the player's transform from (0, 0) to (1, 1).

## Model

| member | source | states |
|---|---|---|
| SparseSet.Empty | ecs.h:45-47 | A new pool is valid: every sparse entry is NULLVAL and it holds no values. |
| SparseSet.DenseBound | ecs.h:40-42 | A valid pool holds at most MAX_ENTITIES values. This is why the slot index that `set` appends can never equal NULLVAL. |
| SparseSet.DenseSize | ecs.h:40-42 | In a valid pool the dense array has exactly one slot per entity held, so no slot is spare or shared. |
| SparseSet.Set | ecs.h:49-60 | `set` keeps the pool valid and maps `e` to `v`. All other entities keep their values and their sparse entries. If `e` was present, its slot is overwritten in place and the array lengths do not change. If not, one slot is appended at index old-length, and `dense_to_id_` there is `e`. |
| SparseSet.Get | ecs.h:76-81 | `get` returns None exactly when the sparse entry is NULLVAL. Otherwise it returns the entity's value in the abstract map. |
| SparseSet.GetRef | ecs.h:83-88 | Called on a present entity, the unchecked `get_ref` returns the same value `get` returns. |
| SparseSet.Swap | ecs.h:68-69 | `std::swap` exchanges two positions and leaves the others alone. |
| SparseSet.DelAsWritten | ecs.h:62-74 | `del` as the source writes it. On an absent entity nothing changes. On a present entity the pool shrinks by exactly one. Every other entity keeps its presence, its back-pointer and its value, including the entity moved out of the last slot. The deleted entity's sparse entry is not reset. |
| SparseSet.DelAsWrittenLeavesStaleEntry | ecs.h:62-74 | After the source's `del` the deleted entity still counts as present, and the pool invariant is broken. Its entry points one past the end, or at the slot and value of the entity that moved. |
| SparseSet.Del | ecs.h:62-74 | The corrected `del` keeps the pool valid and removes exactly `e` from the abstract map. It leaves `e` absent, changes nothing when `e` was absent, and otherwise shrinks the pool by one. |
| TypeIds.Empty | ecs.h:184-187 | The id counter starts at 0 and no type has an id yet. |
| TypeIds.IdOf | ecs.h:184-193 | `get_c_id<T>` gives a type that already has an id that same id, with no other change. A new type gets the counter's current value, and the counter moves on. No earlier id changes, and ids stay distinct and below the counter. |
| TypeIds.CMask | ecs.h:160-170 | `get_c_mask` registers every listed type. The mask holds exactly the ids of the listed types. Earlier ids are kept. |
| TypeIds.CMaskKeys | ecs.h:160-170 | Only the listed types gain ids. |
| TypeIds.CMaskKnown | ecs.h:160-170 | When every listed type already has an id, the registry is unchanged. |
| Ecs.ExactlyOnce | ecs.h:212-219 | Under the invariant, an entity occurs once in the group keyed by its own mask, and not at all in any other group. |
| Ecs.Erase | ecs.h:213 | The erase-remove idiom drops every occurrence of the entity and keeps the count of every other entity. |
| Ecs.MoveEntity | ecs.h:212-219 | The group move erases `e` from the old mask's group and appends it once to the new mask's group, creating either group if it is missing. No other entity's count changes, and no other group changes. |
| Ecs.New | ecs.h:173-175 | The constructor creates only the empty-mask group, with no entities, masks, pools or systems. The store's type-id registry starts empty, and the invariant holds. |
| Ecs.CreateEntity | ecs.h:235-239 | `create_entity` returns the current entity count as the new id and gives that entity the empty mask. It appends the entity to the empty-mask group and changes nothing else. |
| Ecs.CreateEntityPreservesInv | ecs.h:235-239 | `create_entity` preserves the store invariant. |
| Ecs.NewEntityKeepsIndex | ecs.h:236-237 | Appending a fresh entity to the `{}` group keeps the index exact. |
| Ecs.RegisterComponent | ecs.h:195-198 | `register_component` gives the type an id through `get_c_id` and installs an empty, valid pool under it. Every other pool, every mask and the index are unchanged. |
| Ecs.RegisterComponentPreservesInv | ecs.h:195-198 | Registering a type for the first time preserves the invariant. |
| Ecs.ReRegisterBreaksInv | ecs.h:195-198 | Registering a type a second time while an entity holds it breaks the invariant. The new empty pool no longer holds what the entity's mask claims. |
| Ecs.RegisterSystem | ecs.h:200-203 | `register_system` appends a mask and changes nothing else. The system's index is its position in that list, whatever id the caller passed. |
| Ecs.AddComponent | ecs.h:205-220 | `add_component` maps the entity to `v` in the type's pool and leaves the other pools alone. It adds the type's id to the entity's mask and moves the entity from the old mask's group to the new mask's group. |
| Ecs.AddComponentPreservesInv | ecs.h:205-220 | `add_component` on a created entity and a registered type preserves the store invariant. |
| Ecs.MoveKeepsIndex | ecs.h:210-219 | Moving the entity between groups while changing its mask keeps every entity exactly once in its own mask's group. |
| Ecs.AddComponentKeepsMasksMatchPools | ecs.h:207-214 | After `add_component`, bit `c` of each mask is still set exactly when pool `c` holds the entity. |
| Ecs.MatchMask | ecs.h:222-227 | Under the invariant, `match_mask` is true exactly when the entity holds every component in the system's mask. |
| Ecs.GetComponent | ecs.h:229-233 | `get_component` returns the entity's value in the type's pool, or None. Under the invariant it returns a value exactly when the entity exists and its mask has the type's bit. |
| Ecs.AttachThenGet | ecs.h:205-233 | Round trip: after `add_component(t, e, v)`, `get_component(t, e)` returns `v`. Every other (type, entity) pair returns what it returned before. |
| Ecs.ReAttachKeepsSignature | ecs.h:205-220 | Attaching a type the entity already holds leaves every mask, the pool's size and the group keys unchanged. The entity still occurs once in its group. |
| Views.ListKeys | ecs.h:131 | The walk over the unordered map may list the group keys in any order, and lists each key once. |
| Views.GetView | ecs.h:241-245 | `get_view` registers the listed types. The view's target mask is exactly the set of their ids, and position `i` of the view has the id of the `i`-th type. Only the registry may change. |
| Views.GetViewPreservesInv | ecs.h:241-245 | Building a view preserves the store invariant. |
| Views.MatchingCount | ecs.h:131-133 | Walking a duplicate-free key list through an exact index yields each entity whose mask is a listed superset of the target exactly once, and no other entity. |
| Views.Visit | ecs.h:131-133 | `for_each` visits each entity whose mask is a superset of the target exactly once, and visits nothing else, whatever the map's order. |
| Views.Resolve | ecs.h:114-117 | For an entity whose mask has every view id, each `get_ref` in `make_c_tuple` hits a present entry. The tuple holds the entity's value in each listed pool. |
| Views.WriteBack | ecs.h:135 | An assignment through the callback's reference changes one value of one pool. The store stays valid, and no mask, group or other pool changes. |
| Views.Apply | ecs.h:133-136 | Running the callback over matching entities preserves the invariant. It changes only values of the written pool. |
| Views.ApplyEffect | ecs.h:133-136 | After the run, each visited entity's written component holds the callback's result on that entity's original components. Unvisited entities keep their values. |
| Views.ForEach | ecs.h:127-140 | `for_each` visits exactly the matching entities, each once. Every view component is present for each visited entity. The store keeps its invariant and shape. The written component becomes `f` of the entity's components for matching entities and is unchanged for the others. |
| Views.QueryPathsAgree | ecs.h:222-227 | For a system whose mask is the view's target, `for_each` visits an entity exactly when `match_mask` accepts it. |
| Scenarios.Spawn | ecs.h:235-239 | Scenario helper, not a second model of `create_entity`: it packages `Ecs.CreateEntity` with `Ecs.CreateEntityPreservesInv` for the runs below. The new entity has the next id and an empty mask, the invariant holds, and no pool changes. |
| Scenarios.Attach | ecs.h:205-220 | Scenario helper, not a second model of `add_component`: it packages `Ecs.AddComponent` with `Ecs.AddComponentPreservesInv` for the runs below. The invariant holds, one bit is added to one mask, and one pool's map changes at one entity. |
| Scenarios.DemoPlayer | main.cpp:26-43 | After the demo's setup, the player is entity 0. Its mask is {vel, transform}, and the store holds velocity (1, 1) and transform (0, 0) for it. |
| Scenarios.MovementDemo | main.cpp:45-53 | One movement pass over the view <c_vel, c_transform> visits only the player. It sets the player's transform to (1, 1) and leaves the velocity at (1, 1). The callback is `Scenarios.Movement`, which models `movement_sys` (main.cpp:20-23): the new transform is the old transform plus the velocity. |
| Scenarios.PartialSignatureDemo | ecs.h:131-133 | Entity 0 holds only a velocity and entity 1 holds both components. The view <c_vel, c_transform> visits entity 1 alone. |
| Scenarios.OverwriteDemo | ecs.h:49-54 | Attaching health 10 and then health 7 to one entity gives `get_component` 7, and the pool stores one value. |
| Scenarios.SwapDeleteAsWritten | ecs.h:62-81 | The source's `del(1)` on {0 → 10, 1 → 20, 2 → 30}. Two values remain, and `get` still gives 10 for entity 0 and 30 for entity 2. Entity 1's stale entry shares slot 1 with entity 2, so `get(1)` also gives 30, and the pool is no longer valid. |
| Scenarios.SwapDeleteDemo | ecs.h:62-74 | The same deletion run through the corrected delete of the Findings row (`SparseSet.Del`), not the source's `del`. The pool stays valid, entities 0 and 2 keep their values, entity 1 resolves to nothing, and two values remain. |

## Left out

- `main.cpp` calls `ecs.for_each<c_vel, c_transform>(movement_sys)` at line 51, and `ecs.h` declares no such member. `Scenarios.MovementDemo` therefore runs the commented-out form at main.cpp:45-49: `get_view` followed by `view_t::for_each`. The demo's `float` components become integers. The final `std::cout` is not modelled.
- Raw pointers and references. `set`, `get`, `get_ref` and `get_component` return pointers or references, and these are invalidated when a `std::vector` grows. The model returns values, and a write through `get_ref`'s reference becomes the pure `Views.WriteBack`.
- Type erasure. The `i_sparse_set_t` base and the `static_cast` downcasts (ecs.h:32-35, 111, 207, 231) are dropped. All pools of one store hold the same value type `V`, and a component type is named by a string (`TypeIds.TypeName`).
- The process-wide `static` counter of `get_c_id` (ecs.h:184-193). The model gives each store its own registry (`TypeIds.Registry`), an explicit map from type to id plus the counter. Ids are therefore not shared across stores, and they only last as long as the store does.
- `unordered_map` iteration order. `for_each` takes `keys`, which may be any duplicate-free listing of the index's keys (`Views.Enumerates`). Results are stated as multiplicities, so they hold for every order.
- Views.ForEach: the callback is a pure function from the entity's view components to a new value for one of them, the `k`-th. A C++ callback that writes several of its reference parameters, or that reads state outside the tuple, is not modelled.
- The `if constexpr (std::is_invocable_v<...>)` guard (ecs.h:134), which silently skips a callback of the wrong type, is not modelled, because in Dafny the callback's type is fixed.
- Ecs.RegisterSystem: the mask is taken as a set of ids. The source builds it with `bitset{types...}`, which for one integer argument is the bit-pattern constructor, not "set bit i". The `sys_id` argument is ignored, as in the source.
- The `MAX_COMPONENTS` bound (512) on ids is not checked by the source and is not modelled. Ids are unbounded naturals.
- The `new` in `register_component` (ecs.h:197) is never freed, and memory is not modelled.
- The accessors `get_entities_count`, `get_sys_mask` and `get_mask_groups` (ecs.h:177-182) have no members of their own. `get_entities_count` returns a copy of the count. `get_sys_mask` and `get_mask_groups` return non-const references to `system_mask_` and `mask_groups_`, so a caller can rewrite a system mask or the signature index through them. Such writes are not modelled. `Ecs.Inv` is claimed only for stores built and changed by the modelled operations.
- The private helpers `get_component_pool` and `set_bit` (ecs.h:154-163) have no members of their own. `set_bit` is inlined into `CMask`. The id half of `get_component_pool` (its `get_c_id` call) is inlined into `GetView` and `AddComponent`. Its pool half (reading `components_[id]`) is inlined into `AddComponent`, `GetComponent` and, for views, `Views.Resolve` when `ForEach` runs.
- SparseSet.DelAsWritten: like every pool operation (`Set`, `Get`, `GetRef`, `DelAsWritten`), it is modelled only on a valid pool. The source's own `del` leaves a pool that is not valid, so any pool call made after it has left a stale entry is outside the model. `SparseSet.DelAsWrittenLeavesStaleEntry` and `Scenarios.SwapDeleteAsWritten` show that the stale entry shares its slot with the moved entity. A later `set` on the deleted entity then takes the in-place branch of ecs.h:50-53 and overwrites the moved entity's value. That call is not modelled.
- Unchecked preconditions become `requires` clauses:
  - pool operations need `e < MAX_ENTITIES` (ecs.h:40) and a valid pool, as the `SparseSet.DelAsWritten` line above explains;
  - `add_component` needs a created entity (ecs.h:210) and a registered type (ecs.h:207);
  - `get_component` needs a registered type (ecs.h:231);
  - `match_mask` needs an existing entity and system (ecs.h:223).

  Out of range, the source's behaviour is undefined.
- Ecs.RegisterComponentPreservesInv requires that the type has no pool yet. Registering it again replaces the pool with an empty one, as the source does. `Ecs.ReRegisterBreaksInv` shows that this breaks the invariant whenever an entity held the type.
- Views.GetView: the view keeps the component ids and looks their pools up when `for_each` runs. The source instead copies the pool pointers when `get_view` runs (ecs.h:244, stored at line 104 and read at lines 111 and 116). So the two differ when a view outlives a change to the pool table. A view built before its type is registered holds an indeterminate pointer in the source, and reading through it is undefined behaviour; the model reads the pool registered later. Likewise, a type registered again after `get_view` leaves the source's view on the old, leaked pool; the model's view reads the new one.
- Entity and component removal through the facade does not exist in the source, so nothing is modelled for it. The pool's `del` is modelled on its own.

## Findings

| source | as written | input that shows it | evidently intended | confidence | as-written member | corrected member |
|---|---|---|---|---|---|---|
| ecs.h:62-74 | `del` repoints the entity moved out of the last slot (line 73), but never sets `sparse_[e_id]` back to `NULLVAL`. | Take a pool holding entity 0 → a and entity 1 → b, and call `del(0)`. Then `sparse_[0]` is still 0, slot 0 now holds b, and `get(0)` returns b. If the deleted entity was in the last slot, its entry points one past the end instead. With {0 → 10, 1 → 20, 2 → 30}, `del(1)` leaves entry 1 sharing slot 1 with entity 2, so a later `set(1, 99)` overwrites entity 2's value (ecs.h:50-53). | After `del(e)`, `get(e)` returns null, the pool stays a valid sparse set, and every other entity keeps its value. | not executed | SparseSet.DelAsWritten, SparseSet.DelAsWrittenLeavesStaleEntry | SparseSet.Del |

=== FILE: scenarios.dfy ===
/**
  Worked runs of the store: the movement demo of main.cpp:25-57 (with
  integer components, and through a view, since main.cpp:51 calls an
  `ecs_t::for_each` that ecs.h does not declare), and usage runs for
  partial signatures, overwrites and pool deletion.
*/
module Scenarios {
  import opened Wrappers
  import opened SparseSet
  import opened Ecs
  import opened Views

  /** Both demo components are pairs: `c_vel{dx, dy}` and `c_transform{x, y}` (main.cpp:5-11). */
  datatype Vec2 = Vec2(x: int, y: int)

  /** `movement_sys` (main.cpp:20-23) over the values [velocity, transform]: the new transform. */
  function Movement(cs: seq<Vec2>): Vec2 {
    if |cs| < 2 then Vec2(0, 0) else Vec2(cs[1].x + cs[0].x, cs[1].y + cs[0].y)
  }

  /** A store with `c_vel` and `c_transform` registered, as main.cpp:26-29 builds it. */
  method DemoTypes() returns (s: Store<Vec2>)
    ensures Inv(s) && Registered(s, "c_vel") && Registered(s, "c_transform")
    ensures s.registry.ids["c_vel"] == 0 && s.registry.ids["c_transform"] == 1
    ensures s.entityCount == 0 && Abs(s.pools[0]) == map[] && Abs(s.pools[1]) == map[]
  {
    var s0 := New<Vec2>();
    RegisterComponentPreservesInv(s0, "c_vel");
    var s1 := RegisterComponent(s0, "c_vel");
    RegisterComponentPreservesInv(s1, "c_transform");
    s := RegisterComponent(s1, "c_transform");
  }

  /**
    Scenario step: `create_entity` on a store that keeps its invariant,
    packaged for the runs below. The new entity is numbered
    `s.entityCount` and has an empty signature.
  */
  method Spawn<V>(s: Store<V>) returns (r: Store<V>, e: nat)
    requires Inv(s)
    ensures Inv(r) && e == s.entityCount && r.entityCount == e + 1
    ensures |r.entityMask| == e + 1 && r.entityMask[e] == {}
    ensures forall x :: 0 <= x < e ==> r.entityMask[x] == s.entityMask[x]
    ensures r.registry == s.registry && r.pools == s.pools
  {
    CreateEntityPreservesInv(s);
    var created := CreateEntity(s);
    r, e := created.0, created.1;
  }

  /**
    Scenario step: `add_component` on a store that keeps its invariant,
    packaged for the runs below. The store still keeps its invariant,
    the entity's signature gains the type, the type's value for it becomes
    `v`, and every other (type, entity) value stays as it was.
  */
  method Attach<V>(s: Store<V>, t: TypeIds.TypeName, e: nat, v: V) returns (r: Store<V>)
    requires Inv(s) && Registered(s, t) && e < s.entityCount && e < MAX_ENTITIES
    ensures Inv(r) && r.registry == s.registry && r.entityCount == s.entityCount
    ensures |r.entityMask| == |s.entityMask|
    ensures r.entityMask[e] == s.entityMask[e] + {s.registry.ids[t]}
    ensures forall x :: 0 <= x < |s.entityMask| && x != e ==> r.entityMask[x] == s.entityMask[x]
    ensures r.pools.Keys == s.pools.Keys
    ensures Abs(r.pools[s.registry.ids[t]]) == Abs(s.pools[s.registry.ids[t]])[e := v]
    ensures forall c :: c in s.pools && c != s.registry.ids[t] ==> r.pools[c] == s.pools[c]
  {
    AddComponentPreservesInv(s, t, e, v);
    r := AddComponent(s, t, e, v);
  }

  /** The player of main.cpp:31-43: entity 0 with velocity (1, 1) and transform (0, 0). */
  method DemoPlayer() returns (s: Store<Vec2>)
    ensures Inv(s) && Registered(s, "c_vel") && Registered(s, "c_transform")
    ensures s.registry.ids["c_vel"] == 0 && s.registry.ids["c_transform"] == 1
    ensures s.entityCount == 1 && s.entityMask[0] == {0, 1}
    ensures GetComponent(s, "c_vel", 0) == Some(Vec2(1, 1))
    ensures GetComponent(s, "c_transform", 0) == Some(Vec2(0, 0))
  {
    var s2 := DemoMoving();
    s := Attach(s2, "c_transform", 0, Vec2(0, 0));
  }

  /** main.cpp:31-42: the player is entity 0 and holds velocity (1, 1) only. */
  method DemoMoving() returns (s: Store<Vec2>)
    ensures Inv(s) && Registered(s, "c_vel") && Registered(s, "c_transform")
    ensures s.registry.ids["c_vel"] == 0 && s.registry.ids["c_transform"] == 1
    ensures s.entityCount == 1 && s.entityMask[0] == {0}
    ensures Abs(s.pools[0]) == map[0 := Vec2(1, 1)] && Abs(s.pools[1]) == map[]
  {
    var s0 := DemoTypes();
    var s1, player := Spawn(s0);
    s := Attach(s1, "c_vel", player, Vec2(1, 1));
  }

  /** The view <c_vel, c_transform> of main.cpp:51 on a store that knows both types. */
  method DemoView(s: Store<Vec2>) returns (view: View)
    requires Registered(s, "c_vel") && Registered(s, "c_transform")
    requires s.registry.ids["c_vel"] == 0 && s.registry.ids["c_transform"] == 1
    ensures ViewValid(view) && view.ids == [0, 1] && view.target == {0, 1}
    ensures GetView(s, ["c_vel", "c_transform"]) == (s, view)
  {
    var ts := ["c_vel", "c_transform"];
    assert ts[0] in s.registry.ids && ts[1] in s.registry.ids;
    var s';
    var built := GetView(s, ts);
    s', view := built.0, built.1;
    assert view.ids[0] == 0 && view.ids[1] == 1;
  }

  /**
    main.cpp:45-53: one pass of the movement system over the view
    <c_vel, c_transform> visits the player only, moves its transform to
    (1, 1) and leaves its velocity alone.
  */
  method MovementDemo() returns (visited: seq<nat>, s: Store<Vec2>)
    ensures visited == [0]
    ensures Inv(s) && Registered(s, "c_vel") && Registered(s, "c_transform")
    ensures GetComponent(s, "c_transform", 0) == Some(Vec2(1, 1))
    ensures GetComponent(s, "c_vel", 0) == Some(Vec2(1, 1))
  {
    var s1 := DemoPlayer();
    var view := DemoView(s1);
    var keys := ListKeys(s1.groups.Keys);
    var run := ForEach(s1, view, keys, 1, Movement);
    visited, s := run.0, run.1;
    MovementPass(s1, view, keys);
  }

  /** The pass itself, on any store whose only entity holds velocity (1, 1) and transform (0, 0). */
  lemma MovementPass(s: Store<Vec2>, view: View, keys: seq<Mask>)
    requires Inv(s) && ViewValid(view) && |view.ids| == 2 && view.ids[0] == 0 && view.ids[1] == 1
    requires Enumerates(keys, s.groups.Keys)
    requires s.entityCount == 1 && s.entityMask[0] == {0, 1}
    requires 0 in s.pools && 1 in s.pools
    requires Get(s.pools[0], 0) == Some(Vec2(1, 1)) && Get(s.pools[1], 0) == Some(Vec2(0, 0))
    ensures var (visited, s') := ForEach(s, view, keys, 1, Movement);
      && visited == [0]
      && Get(s'.pools[1], 0) == Some(Vec2(1, 1))
      && Get(s'.pools[0], 0) == Some(Vec2(1, 1))
  {
    assert Matches(s, view, 0);
    var vals := Resolve(s, view.ids, 0);
    assert Some(vals[0]) == Some(Vec2(1, 1)) && Some(vals[1]) == Some(Vec2(0, 0));
    var (visited, s') := ForEach(s, view, keys, 1, Movement);
    assert multiset(visited)[0] == 1;
    forall x: nat | x != 0
      ensures multiset(visited)[x] == 0
    {
      assert x >= |s.entityMask|;
    }
    SingletonSeq(visited, 0);
  }

  /** Entity 0 holds a velocity only; entity 1 holds a velocity and a transform. */
  method PartialSignatures() returns (s: Store<Vec2>)
    ensures Inv(s) && Registered(s, "c_vel") && Registered(s, "c_transform")
    ensures s.registry.ids["c_vel"] == 0 && s.registry.ids["c_transform"] == 1
    ensures s.entityCount == 2
    ensures s.entityMask[0] == {0} && s.entityMask[1] == {0, 1}
  {
    var s4 := TwoMoving();
    s := Attach(s4, "c_transform", 1, Vec2(0, 0));
  }

  /** Entities 0 and 1, each holding a velocity only. */
  method TwoMoving() returns (s: Store<Vec2>)
    ensures Inv(s) && Registered(s, "c_vel") && Registered(s, "c_transform")
    ensures s.registry.ids["c_vel"] == 0 && s.registry.ids["c_transform"] == 1
    ensures s.entityCount == 2 && s.entityMask[0] == {0} && s.entityMask[1] == {0}
  {
    var s2 := TwoBareEntities();
    var s3 := Attach(s2, "c_vel", 0, Vec2(1, 1));
    s := Attach(s3, "c_vel", 1, Vec2(2, 2));
  }

  /** The demo types and two entities, 0 and 1, with empty signatures. */
  method TwoBareEntities() returns (s: Store<Vec2>)
    ensures Inv(s) && Registered(s, "c_vel") && Registered(s, "c_transform")
    ensures s.registry.ids["c_vel"] == 0 && s.registry.ids["c_transform"] == 1
    ensures s.entityCount == 2 && s.entityMask[0] == {} && s.entityMask[1] == {}
  {
    var s0 := DemoTypes();
    var s1, walker := Spawn(s0);
    var mover;
    s, mover := Spawn(s1);
    assert walker == 0 && mover == 1;
  }

  /**
    A partial signature is not visited: with entity 0 holding only a
    velocity and entity 1 holding both, the view <c_vel, c_transform>
    visits entity 1 alone.
  */
  method PartialSignatureDemo() returns (visited: seq<nat>)
    ensures visited == [1]
  {
    var s := PartialSignatures();
    var view := DemoView(s);
    var keys := ListKeys(s.groups.Keys);
    visited := Visit(s, view, keys);
    forall x: nat | x != 1
      ensures multiset(visited)[x] == 0
    {
      if x == 0 {
        assert 1 in view.target && 1 !in s.entityMask[0];
      } else {
        assert x >= |s.entityMask|;
      }
    }
    SingletonSeq(visited, 1);
  }

  /**
    Attaching a type the entity already holds overwrites its value in
    place: after health 10 and then health 7, `get_component` yields 7 and
    the pool still stores one value.
  */
  method OverwriteDemo() returns (s: Store<int>)
    ensures Registered(s, "c_health") && Valid(s.pools[s.registry.ids["c_health"]])
    ensures GetComponent(s, "c_health", 0) == Some(7)
    ensures |s.pools[s.registry.ids["c_health"]].dense| == 1
  {
    var s3 := HealthTen();
    s := Attach(s3, "c_health", 0, 7);
    var c := s.registry.ids["c_health"];
    assert Abs(s.pools[c]) == map[0 := 10][0 := 7];
    DenseSize(s.pools[c]);
  }

  /** A store whose one entity, 0, has health 10. */
  method HealthTen() returns (s: Store<int>)
    ensures Inv(s) && Registered(s, "c_health") && s.entityCount == 1
    ensures Abs(s.pools[s.registry.ids["c_health"]]) == map[0 := 10]
  {
    var s0 := New<int>();
    RegisterComponentPreservesInv(s0, "c_health");
    var s1 := RegisterComponent(s0, "c_health");
    var s2, e := Spawn(s1);
    s := Attach(s2, "c_health", e, 10);
  }

  /**
    What the lookup of `get` (ecs.h:76-81) returns on a pool that need not
    be valid: entity `e`'s entry is not NULLVAL, it names a stored slot, and
    that slot holds `v`.
  */
  predicate Yields<T(==)>(p: Pool<T>, e: nat, v: T) {
    && e < |p.sparse| && p.sparse[e] != NULLVAL
    && p.sparse[e] < |p.dense| && p.dense[p.sparse[e]] == v
  }

  /** The pool {0 -> 10, 1 -> 20, 2 -> 30}, built by three appends. */
  method ThreeValues() returns (p: Pool<int>)
    ensures Valid(p) && |p.dense| == 3
    ensures Abs(p) == map[0 := 10, 1 := 20, 2 := 30]
    ensures p.sparse[1] == 1 && p.sparse[2] == 2 && p.dense[2] == 30
  {
    var p0 := SparseSet.Empty<int>();
    var p1 := Set(p0, 0, 10);
    var p2 := Set(p1, 1, 20);
    p := Set(p2, 2, 30);
    assert Abs(p) == map[0 := 10][1 := 20][2 := 30];
  }

  /**
    The source's `del(1)` on {0 -> 10, 1 -> 20, 2 -> 30}: entity 2's value
    moves into slot 1 and entities 0 and 2 still resolve to their own
    values, but entity 1's entry is left pointing at slot 1, so `get(1)`
    yields 30 and the pool is no longer valid.
  */
  method SwapDeleteAsWritten() returns (p: Pool<int>)
    ensures |p.dense| == 2 && !Valid(p)
    ensures Yields(p, 0, 10) && Yields(p, 2, 30)
    ensures Yields(p, 1, 30) && p.sparse[1] == p.sparse[2]
  {
    var p3 := ThreeValues();
    p := DelAsWritten(p3, 1);
    DelAsWrittenLeavesStaleEntry(p3, 1);
    assert 0 in Abs(p3) && 2 in Abs(p3);
    assert Present(p3, 0) && Abs(p3)[0] == p3.dense[p3.sparse[0]];
    assert Present(p3, 2) && Abs(p3)[2] == p3.dense[p3.sparse[2]];
  }

  /**
    The same deletion with the corrected `SparseSet.Del`: entities 0
    and 2 keep their values, entity 1 resolves to nothing, and two values
    remain.
  */
  method SwapDeleteDemo() returns (p: Pool<int>)
    ensures Valid(p) && |p.dense| == 2
    ensures Get(p, 0) == Some(10) && Get(p, 1) == None && Get(p, 2) == Some(30)
  {
    var p3 := ThreeValues();
    p := Del(p3, 1);
  }

  /** A sequence in which `x` occurs once and nothing else occurs is `[x]`. */
  lemma SingletonSeq(xs: seq<nat>, x: nat)
    requires multiset(xs)[x] == 1
    requires forall y :: y != x ==> multiset(xs)[y] == 0
    ensures xs == [x]
  {
    assert multiset(xs) == multiset{x} by {
      forall y | true
        ensures multiset(xs)[y] == multiset{x}[y]
      {
      }
    }
    assert |xs| == |multiset(xs)| == 1;
    assert xs[0] in multiset(xs);
  }
}

=== FILE: sparse_set.dfy ===
/**
  The per-component-type pool `sparse_set_t<CType>` (ecs.h:37-89).

  A pool keeps three parallel structures: `sparse` maps an entity id to the
  dense slot that holds its value (or to NULLVAL when the entity has no
  value), `dense` holds the values, and `denseToId` maps a slot back to the
  entity that owns it.  The pool is modelled generically over its value type;
  the returned raw pointers become plain values.

  `Abs` reads a valid pool as the finite map entity -> value it stands for.
  Every operation on a valid pool that yields a valid pool is specified by
  its effect on that map.  The exceptions are `Swap`, which works on a
  plain sequence, and `del` as the source writes it, whose result is not a
  valid pool; both are stated on the raw arrays.
*/
module SparseSet {
  import opened Wrappers

  /** Length of every pool's sparse array (ecs.h:19). */
  const MAX_ENTITIES: nat := 1024
  /** The "no slot" marker stored in the sparse array (ecs.h:20). */
  const NULLVAL: nat := MAX_ENTITIES + 1

  datatype Pool<T> = Pool(sparse: seq<nat>, dense: seq<T>, denseToId: seq<nat>)

  /** Every entity with a slot owns that slot. */
  ghost predicate SparseToDense<T>(p: Pool<T>) {
    forall e :: 0 <= e < |p.sparse| && p.sparse[e] != NULLVAL ==>
      p.sparse[e] < |p.denseToId| && p.denseToId[p.sparse[e]] == e
  }

  /** Every slot is owned by an in-range entity whose sparse entry points back to it. */
  ghost predicate DenseToSparse<T>(p: Pool<T>) {
    forall i :: 0 <= i < |p.denseToId| ==>
      p.denseToId[i] < |p.sparse| && p.sparse[p.denseToId[i]] == i
  }

  /** The pool invariant: the sparse array and the slot-owner table are inverse bijections. */
  ghost predicate Valid<T>(p: Pool<T>) {
    && |p.sparse| == MAX_ENTITIES
    && |p.dense| == |p.denseToId|
    && SparseToDense(p)
    && DenseToSparse(p)
  }

  /** Whether entity `e` has a slot (the test of ecs.h:50, 64 and 78). */
  predicate Present<T>(p: Pool<T>, e: nat)
    requires e < |p.sparse|
  {
    p.sparse[e] != NULLVAL
  }

  /** The entity -> value map a valid pool represents. */
  ghost function Abs<T>(p: Pool<T>): map<nat, T>
    requires Valid(p)
  {
    map e: nat | e < MAX_ENTITIES && Present(p, e) :: p.dense[p.sparse[e]]
  }

  /** A fresh pool: every sparse entry is NULLVAL and nothing is stored (ecs.h:45-47). */
  function Empty<T>(): (r: Pool<T>)
    ensures Valid(r)
    ensures Abs(r) == map[]
    ensures forall e :: 0 <= e < MAX_ENTITIES ==> !Present(r, e)
  {
    Pool(seq(MAX_ENTITIES, _ => NULLVAL), [], [])
  }

  // ---------------------------------------------------------------------------
  // Counting slots: a valid pool never holds more than MAX_ENTITIES values, so
  // a new slot index can never collide with NULLVAL.

  /** No element of `s` occurs twice. */
  ghost predicate Distinct<X>(s: seq<X>) {
    forall i, j :: 0 <= i < j < |s| ==> s[i] != s[j]
  }

  /** The ids a sequence mentions. */
  function Elems(s: seq<nat>): (r: set<nat>)
    ensures forall x :: x in r <==> x in s
  {
    set x | x in s
  }

  lemma {:induction false} DistinctCard(s: seq<nat>)
    requires Distinct(s)
    ensures |Elems(s)| == |s|
  {
    if |s| > 0 {
      var t := s[..|s| - 1];
      var y := s[|s| - 1];
      assert s == t + [y];
      assert Distinct(t);
      DistinctCard(t);
      var a := Elems(t);
      var b := Elems(s);
      assert b == a + {y};
      assert y !in a;
      assert |b| == |a| + 1;
    }
  }

  /** The ids below `n`. */
  function Range(n: nat): (r: set<nat>)
    ensures forall x: nat :: x in r <==> x < n
    ensures |r| == n
  {
    if n == 0 then {} else Range(n - 1) + {n - 1}
  }

  /** Pigeonhole: distinct ids below `n` number at most `n`. */
  lemma Pigeonhole(s: seq<nat>, n: nat)
    requires Distinct(s)
    requires forall i :: 0 <= i < |s| ==> s[i] < n
    ensures |s| <= n
  {
    var a := Elems(s);
    var b := Range(n);
    DistinctCard(s);
    forall x | x in a
      ensures x in b
    {
      var i :| 0 <= i < |s| && s[i] == x;
    }
    assert a <= b;
    assert b == a + (b - a);
    assert |b| == |a| + |b - a|;
  }

  lemma DenseBound<T>(p: Pool<T>)
    requires Valid(p)
    ensures |p.dense| <= MAX_ENTITIES
  {
    forall i, j | 0 <= i < j < |p.denseToId|
      ensures p.denseToId[i] != p.denseToId[j]
    {
      assert p.sparse[p.denseToId[i]] == i;
      assert p.sparse[p.denseToId[j]] == j;
    }
    Pigeonhole(p.denseToId, MAX_ENTITIES);
  }

  /** A valid pool stores exactly one value per entity it holds: no slot is spare or shared. */
  lemma DenseSize<T>(p: Pool<T>)
    requires Valid(p)
    ensures |p.dense| == |Abs(p)|
  {
    DenseBound(p);
    var ks := Abs(p).Keys;
    forall x | x in ks
      ensures x in Elems(p.denseToId)
    {
      assert p.denseToId[p.sparse[x]] == x;
    }
    forall x | x in Elems(p.denseToId)
      ensures x in ks
    {
      var i :| 0 <= i < |p.denseToId| && p.denseToId[i] == x;
      assert p.sparse[x] == i;
    }
    assert ks == Elems(p.denseToId);
    forall i, j | 0 <= i < j < |p.denseToId|
      ensures p.denseToId[i] != p.denseToId[j]
    {
      assert p.sparse[p.denseToId[i]] == i;
      assert p.sparse[p.denseToId[j]] == j;
    }
    DistinctCard(p.denseToId);
  }

  // ---------------------------------------------------------------------------
  // Operations

  /**
    `set` (ecs.h:49-60): overwrite the entity's slot in place when it has one,
    otherwise append a slot for it.  The returned pointer is the slot
    `r.sparse[e]`.
  */
  function Set<T>(p: Pool<T>, e: nat, v: T): (r: Pool<T>)
    requires Valid(p) && e < MAX_ENTITIES
    ensures Valid(r)
    ensures Abs(r) == Abs(p)[e := v]
    ensures forall x :: 0 <= x < MAX_ENTITIES ==> (Present(r, x) <==> x == e || Present(p, x))
    ensures r.sparse[e] < |r.dense| && r.dense[r.sparse[e]] == v
    ensures forall x :: 0 <= x < MAX_ENTITIES && x != e ==> r.sparse[x] == p.sparse[x]
    ensures Present(p, e) ==>
      r.sparse == p.sparse && r.denseToId == p.denseToId && |r.dense| == |p.dense|
    ensures !Present(p, e) ==>
      && |r.dense| == |r.denseToId| == |p.dense| + 1
      && r.sparse[e] == |p.dense|
      && r.denseToId[|p.dense|] == e
      && r.dense[..|p.dense|] == p.dense
  {
    if p.sparse[e] != NULLVAL then
      var idx := p.sparse[e];
      var r := p.(dense := p.dense[idx := v]);
      AbsAfterOverwrite(p, e, v, r);
      r
    else
      DenseBound(p);
      var r := Pool(p.sparse[e := |p.dense|], p.dense + [v], p.denseToId + [e]);
      AbsAfterAppend(p, e, v, r);
      r
  }

  lemma AbsAfterOverwrite<T>(p: Pool<T>, e: nat, v: T, r: Pool<T>)
    requires Valid(p) && e < MAX_ENTITIES && Present(p, e)
    requires r == p.(dense := p.dense[p.sparse[e] := v])
    ensures Valid(r) && Abs(r) == Abs(p)[e := v]
  {
    assert Valid(r);
    forall x | 0 <= x < MAX_ENTITIES && Present(r, x) && x != e
      ensures r.dense[r.sparse[x]] == p.dense[p.sparse[x]]
    {
      assert p.denseToId[p.sparse[x]] == x;
    }
  }

  lemma AbsAfterAppend<T>(p: Pool<T>, e: nat, v: T, r: Pool<T>)
    requires Valid(p) && e < MAX_ENTITIES && !Present(p, e) && |p.dense| <= MAX_ENTITIES
    requires r == Pool(p.sparse[e := |p.dense|], p.dense + [v], p.denseToId + [e])
    ensures Valid(r) && Abs(r) == Abs(p)[e := v]
  {
    assert SparseToDense(r);
    forall i | 0 <= i < |r.denseToId|
      ensures r.denseToId[i] < |r.sparse| && r.sparse[r.denseToId[i]] == i
    {
      if i < |p.denseToId| {
        assert p.sparse[p.denseToId[i]] == i;
      }
    }
    assert Valid(r);
  }

  /** `get` (ecs.h:76-81): the entity's value, or None when its sparse entry is NULLVAL. */
  function Get<T>(p: Pool<T>, e: nat): (r: Option<T>)
    requires Valid(p) && e < MAX_ENTITIES
    ensures r.None? <==> !Present(p, e)
    ensures r.None? <==> e !in Abs(p)
    ensures r.Some? ==> r.value == Abs(p)[e]
  {
    var idx := p.sparse[e];
    if idx == NULLVAL then None else Some(p.dense[idx])
  }

  /**
    `get_ref` (ecs.h:83-88): the unchecked access.  The source dereferences the
    slot without testing for NULLVAL, so presence is its caller's obligation.
  */
  function GetRef<T>(p: Pool<T>, e: nat): (r: T)
    requires Valid(p) && e < MAX_ENTITIES && Present(p, e)
    ensures e in Abs(p) && r == Abs(p)[e]
    ensures Get(p, e) == Some(r)
  {
    p.dense[p.sparse[e]]
  }

  /** `std::swap` of two positions of a sequence. */
  function Swap<T>(s: seq<T>, i: nat, j: nat): (r: seq<T>)
    requires i < |s| && j < |s|
    ensures |r| == |s| && r[i] == s[j] && r[j] == s[i]
    ensures forall k :: 0 <= k < |s| && k != i && k != j ==> r[k] == s[k]
  {
    s[i := s[j]][j := s[i]]
  }

  /**
    `del` exactly as ecs.h:62-74 writes it: swap the entity's slot with the
    last one, pop, and repoint the moved entity.  The deleted entity's own
    sparse entry is never reset.
  */
  function DelAsWritten<T>(p: Pool<T>, e: nat): (r: Pool<T>)
    requires Valid(p) && e < MAX_ENTITIES
    ensures !Present(p, e) ==> r == p
    ensures Present(p, e) ==>
      && |r.sparse| == MAX_ENTITIES
      && |r.dense| == |r.denseToId| == |p.dense| - 1
      && r.sparse[e] == p.sparse[e]
    ensures Present(p, e) ==> forall x :: 0 <= x < MAX_ENTITIES && x != e ==>
      && (Present(r, x) <==> Present(p, x))
      && (Present(p, x) ==>
            r.sparse[x] < |r.dense| && r.denseToId[r.sparse[x]] == x
            && r.dense[r.sparse[x]] == p.dense[p.sparse[x]])
  {
    var idx := p.sparse[e];
    if idx == NULLVAL then p
    else
      var last := |p.dense| - 1;
      var lastId := p.denseToId[last];
      var dense := Swap(p.dense, last, idx);
      var ids := Swap(p.denseToId, last, idx);
      DelAsWrittenFrame(p, e);
      Pool(p.sparse[lastId := idx], dense[..last], ids[..last])
  }

  lemma DelAsWrittenFrame<T>(p: Pool<T>, e: nat)
    requires Valid(p) && e < MAX_ENTITIES && Present(p, e)
    ensures var idx := p.sparse[e];
      var last := |p.dense| - 1;
      var lastId := p.denseToId[last];
      var r := Pool(p.sparse[lastId := idx], Swap(p.dense, last, idx)[..last], Swap(p.denseToId, last, idx)[..last]);
      forall x :: 0 <= x < MAX_ENTITIES && x != e ==>
        && (Present(r, x) <==> Present(p, x))
        && (Present(p, x) ==>
              r.sparse[x] < |r.dense| && r.denseToId[r.sparse[x]] == x
              && r.dense[r.sparse[x]] == p.dense[p.sparse[x]])
  {
    var idx := p.sparse[e];
    var last := |p.dense| - 1;
    var lastId := p.denseToId[last];
    var r := Pool(p.sparse[lastId := idx], Swap(p.dense, last, idx)[..last], Swap(p.denseToId, last, idx)[..last]);
    assert p.sparse[lastId] == last;
    assert p.denseToId[idx] == e;
    DenseBound(p);
    forall x | 0 <= x < MAX_ENTITIES && x != e
      ensures (Present(r, x) <==> Present(p, x))
      ensures Present(p, x) ==>
              r.sparse[x] < |r.dense| && r.denseToId[r.sparse[x]] == x
              && r.dense[r.sparse[x]] == p.dense[p.sparse[x]]
    {
      if x == lastId {
        assert idx != last;
        assert r.sparse[x] == idx;
      } else if Present(p, x) {
        assert p.denseToId[p.sparse[x]] == x;
        assert p.sparse[x] != idx;
        assert p.sparse[x] != last;
        assert r.sparse[x] == p.sparse[x];
      } else {
        assert r.sparse[x] == p.sparse[x];
      }
    }
  }

  /**
    What `del` leaves behind as written: the deleted entity still has a
    sparse entry, and that entry either points one past the end of the
    shrunken pool (the entity was in the last slot) or at the slot that now
    belongs to the entity moved out of the last slot, so a later `get`
    returns that entity's value.  Either way the pool invariant is broken.
  */
  lemma DelAsWrittenLeavesStaleEntry<T>(p: Pool<T>, e: nat)
    requires Valid(p) && e < MAX_ENTITIES && Present(p, e)
    ensures var r := DelAsWritten(p, e);
      && Present(r, e)
      && !Valid(r)
      && (p.sparse[e] == |p.dense| - 1 ==> r.sparse[e] == |r.dense|)
      && (p.sparse[e] < |p.dense| - 1 ==>
            && r.sparse[e] < |r.dense|
            && r.denseToId[r.sparse[e]] == p.denseToId[|p.dense| - 1] != e
            && r.dense[r.sparse[e]] == p.dense[|p.dense| - 1])
  {
    var r := DelAsWritten(p, e);
    var idx := p.sparse[e];
    var last := |p.dense| - 1;
    assert p.denseToId[idx] == e;
    if idx < last {
      var lastId := p.denseToId[last];
      assert p.sparse[lastId] == last;
      assert lastId != e;
      assert r.denseToId[idx] == lastId;
      assert !SparseToDense(r);
    } else {
      assert !SparseToDense(r);
    }
  }

  /**
    `del` with the missing reset added: as written, then the deleted entity's
    sparse entry becomes NULLVAL.  This is the corrected delete; the facade
    never deletes, so only the scenarios call it.
  */
  function Del<T>(p: Pool<T>, e: nat): (r: Pool<T>)
    requires Valid(p) && e < MAX_ENTITIES
    ensures Valid(r)
    ensures Abs(r) == Abs(p) - {e}
    ensures !Present(r, e)
    ensures !Present(p, e) ==> r == p
    ensures Present(p, e) ==> |r.dense| == |p.dense| - 1
  {
    var q := DelAsWritten(p, e);
    var r := q.(sparse := q.sparse[e := NULLVAL]);
    DelValid(p, e, r);
    r
  }

  lemma DelValid<T>(p: Pool<T>, e: nat, r: Pool<T>)
    requires Valid(p) && e < MAX_ENTITIES
    requires r == DelAsWritten(p, e).(sparse := DelAsWritten(p, e).sparse[e := NULLVAL])
    ensures Valid(r) && Abs(r) == Abs(p) - {e}
  {
    if Present(p, e) {
      var q := DelAsWritten(p, e);
      var idx := p.sparse[e];
      var last := |p.dense| - 1;
      assert p.denseToId[idx] == e;
      forall i | 0 <= i < |r.denseToId|
        ensures r.denseToId[i] < |r.sparse| && r.sparse[r.denseToId[i]] == i
      {
        var x := r.denseToId[i];
        if i == idx {
          assert x == p.denseToId[last];
          assert p.sparse[x] == last;
          assert x != e;
        } else {
          assert x == p.denseToId[i];
          assert p.sparse[x] == i;
          assert x != e;
        }
      }
      assert Valid(r);
      DelAbs(p, e, r);
    }
  }

  /** The corrected delete forgets `e` and keeps every other entity's value. */
  lemma DelAbs<T>(p: Pool<T>, e: nat, r: Pool<T>)
    requires Valid(p) && Valid(r) && e < MAX_ENTITIES && Present(p, e)
    requires r == DelAsWritten(p, e).(sparse := DelAsWritten(p, e).sparse[e := NULLVAL])
    ensures Abs(r) == Abs(p) - {e}
  {
    var a := Abs(r);
    var b := Abs(p) - {e};
    forall x | x in a
      ensures x in b && a[x] == b[x]
    {
      assert x != e;
    }
    forall x | x in b
      ensures x in a
    {
      assert x != e && Present(p, x);
    }
  }
}

=== FILE: store.dfy ===
/**
  The store facade `ecs_t` (ecs.h:144-247).

  The store owns one pool per component id, each entity's mask (the set of
  ids of the components it holds; a `bitset` in the source), the masks
  registered for systems, and the signature index `groups`, which maps a
  mask to the entities whose mask is exactly that one.  All pools hold the
  same value type `V`; the source's type-erased pools and downcasts are not
  modelled.
*/
module Ecs {
  import opened Wrappers
  import opened SparseSet
  import TypeIds

  /** A component signature: the ids of a set of component types. */
  type Mask = set<nat>

  datatype Store<V> = Store(
    entityCount: nat,
    registry: TypeIds.Registry,
    pools: map<nat, Pool<V>>,
    entityMask: seq<Mask>,
    systemMask: seq<Mask>,
    groups: map<Mask, seq<nat>>)

  // ---------------------------------------------------------------------------
  // The store invariant

  /** Entity `e` holds the component with id `c`. */
  ghost predicate Holds<V>(s: Store<V>, c: nat, e: nat) {
    c in s.pools && e < |s.pools[c].sparse| && Present(s.pools[c], e)
  }

  /** Every pool was given an id by the registry and is a valid sparse set. */
  ghost predicate PoolsWellFormed<V>(s: Store<V>) {
    forall c :: c in s.pools ==> c < s.registry.next && Valid(s.pools[c])
  }

  /** Bit `c` of an entity's mask is set exactly when pool `c` holds the entity. */
  ghost predicate MasksMatchPools<V>(s: Store<V>) {
    && (forall e: nat, c: nat :: e < |s.entityMask| && c in s.entityMask[e] ==> Holds(s, c, e))
    && (forall c: nat, e: nat :: Holds(s, c, e) ==> e < |s.entityMask| && c in s.entityMask[e])
  }

  /**
    The signature index agrees with the entity masks: every entity occurs
    exactly once in the group of its own mask, and a group holds only
    entities whose mask is its key.
  */
  ghost predicate IndexMatches(groups: map<Mask, seq<nat>>, masks: seq<Mask>) {
    && (forall e :: 0 <= e < |masks| ==> masks[e] in groups && multiset(groups[masks[e]])[e] == 1)
    && (forall m, i :: m in groups && 0 <= i < |groups[m]| ==>
          groups[m][i] < |masks| && masks[groups[m][i]] == m)
  }

  /** The empty-mask group exists and the index agrees with the masks. */
  ghost predicate GroupsMatchMasks<V>(s: Store<V>) {
    {} in s.groups && IndexMatches(s.groups, s.entityMask)
  }

  /** An entity occurs in a group exactly when the group's key is its mask, and then once. */
  lemma IndexCount(groups: map<Mask, seq<nat>>, masks: seq<Mask>, m: Mask, e: nat)
    requires IndexMatches(groups, masks) && m in groups
    ensures multiset(groups[m])[e] == if e < |masks| && masks[e] == m then 1 else 0
  {
  }

  /**
    The store invariant: ids are distinct, there is one mask per created
    entity, every pool is a valid sparse set, masks and pools agree, and the
    signature index agrees with the masks.
  */
  ghost predicate Inv<V>(s: Store<V>) {
    && TypeIds.Valid(s.registry)
    && |s.entityMask| == s.entityCount
    && PoolsWellFormed(s)
    && MasksMatchPools(s)
    && GroupsMatchMasks(s)
  }

  /** Every created entity occurs once in the whole index: in its own group and in no other. */
  lemma ExactlyOnce<V>(s: Store<V>, m: Mask, e: nat)
    requires Inv(s) && m in s.groups
    ensures multiset(s.groups[m])[e] == if e < s.entityCount && s.entityMask[e] == m then 1 else 0
  {
    IndexCount(s.groups, s.entityMask, m, e);
  }

  /** Type `t` has an id and a pool (it went through `register_component`). */
  predicate Registered<V>(s: Store<V>, t: TypeIds.TypeName) {
    t in s.registry.ids && s.registry.ids[t] in s.pools
  }

  // ---------------------------------------------------------------------------
  // The index primitives

  /** `mask_groups_[m]`: `operator[]` yields an empty group for a missing key. */
  function Group(groups: map<Mask, seq<nat>>, m: Mask): seq<nat> {
    if m in groups then groups[m] else []
  }

  /** `vec.erase(std::remove(vec.begin(), vec.end(), x), vec.end())`: drop every `x`, keep the rest in order. */
  function Erase(xs: seq<nat>, x: nat): (r: seq<nat>)
    ensures multiset(r)[x] == 0
    ensures forall y :: y != x ==> multiset(r)[y] == multiset(xs)[y]
    ensures |r| <= |xs|
  {
    if xs == [] then []
    else
      assert xs == [xs[0]] + xs[1..];
      if xs[0] == x then Erase(xs[1..], x) else [xs[0]] + Erase(xs[1..], x)
  }

  /**
    The group move of ecs.h:212-219: erase `e` from the group of `from`,
    then append it to the group of `to`, which is created empty first when
    missing (lines 216-218; `operator[]` would do the same).
  */
  function MoveEntity(groups: map<Mask, seq<nat>>, e: nat, from: Mask, to: Mask): (r: map<Mask, seq<nat>>)
    ensures r.Keys == groups.Keys + {from, to}
    ensures forall m :: m in groups && m != from && m != to ==> r[m] == groups[m]
    ensures forall y :: y != e ==>
      multiset(r[from])[y] == multiset(Group(groups, from))[y]
      && multiset(r[to])[y] == multiset(Group(groups, to))[y]
    ensures multiset(r[to])[e] == 1 + (if to == from then 0 else multiset(Group(groups, to))[e])
    ensures from != to ==> multiset(r[from])[e] == 0
  {
    var g1 := groups[from := Erase(Group(groups, from), e)];
    var r := g1[to := Group(g1, to) + [e]];
    MoveEntityCounts(groups, e, from, to, g1, r);
    r
  }

  lemma MoveEntityCounts(groups: map<Mask, seq<nat>>, e: nat, from: Mask, to: Mask,
                         g1: map<Mask, seq<nat>>, r: map<Mask, seq<nat>>)
    requires g1 == groups[from := Erase(Group(groups, from), e)]
    requires r == g1[to := Group(g1, to) + [e]]
    ensures forall y :: y != e ==>
      multiset(r[from])[y] == multiset(Group(groups, from))[y]
      && multiset(r[to])[y] == multiset(Group(groups, to))[y]
    ensures multiset(r[to])[e] == 1 + (if to == from then 0 else multiset(Group(groups, to))[e])
    ensures from != to ==> multiset(r[from])[e] == 0
    ensures r.Keys == groups.Keys + {from, to}
    ensures forall m :: m in groups && m != from && m != to ==> r[m] == groups[m]
  {
    var erased := Erase(Group(groups, from), e);
    var base := Group(g1, to);
    if to == from {
      assert base == erased;
      MultisetAppend(erased, e);
    } else {
      assert base == Group(groups, to);
      assert r[from] == erased;
      MultisetAppend(base, e);
    }
  }

  lemma MultisetAppend(xs: seq<nat>, e: nat)
    ensures multiset(xs + [e])[e] == multiset(xs)[e] + 1
    ensures forall y :: y != e ==> multiset(xs + [e])[y] == multiset(xs)[y]
  {
    assert multiset(xs + [e]) == multiset(xs) + multiset{e};
  }

  // ---------------------------------------------------------------------------
  // Store operations

  /** The constructor (ecs.h:173-175): no entities, no types, only the empty-mask group. */
  function New<V>(): (r: Store<V>)
    ensures Inv(r)
    ensures r.entityCount == 0 && r.pools == map[] && r.systemMask == []
    ensures r.registry == TypeIds.Empty() && r.entityMask == []
    ensures r.groups.Keys == {{}} && r.groups[{}] == []
  {
    Store(0, TypeIds.Empty(), map[], [], [], map[{} := []])
  }

  /**
    `create_entity` (ecs.h:235-239): the next id, with the empty mask,
    appended to the empty-mask group.
  */
  function CreateEntity<V>(s: Store<V>): (r: (Store<V>, nat))
    ensures r.1 == s.entityCount && r.0.entityCount == s.entityCount + 1
    ensures |r.0.entityMask| == |s.entityMask| + 1
    ensures r.0.entityMask[..|s.entityMask|] == s.entityMask && r.0.entityMask[|s.entityMask|] == {}
    ensures r.0.registry == s.registry && r.0.pools == s.pools && r.0.systemMask == s.systemMask
    ensures {} in r.0.groups && r.0.groups[{}] == Group(s.groups, {}) + [r.1]
    ensures r.0.groups.Keys == s.groups.Keys + {{}}
    ensures forall m :: m in s.groups && m != {} ==> m in r.0.groups && r.0.groups[m] == s.groups[m]
  {
    var e := s.entityCount;
    var groups := s.groups[{} := Group(s.groups, {}) + [e]];
    (s.(entityCount := e + 1, entityMask := s.entityMask + [{}], groups := groups), e)
  }

  lemma CreateEntityPreservesInv<V>(s: Store<V>)
    requires Inv(s)
    ensures Inv(CreateEntity(s).0)
  {
    var (r, e) := CreateEntity(s);
    forall c: nat, x: nat | Holds(r, c, x)
      ensures x < |r.entityMask| && c in r.entityMask[x]
    {
      assert Holds(s, c, x);
    }
    NewEntityKeepsIndex(s.groups, s.entityMask);
    assert r.groups == s.groups[{} := s.groups[{}] + [e]];
  }

  /** Appending a new entity with the empty mask to the `{}` group keeps the index exact. */
  lemma NewEntityKeepsIndex(groups: map<Mask, seq<nat>>, masks: seq<Mask>)
    requires {} in groups && IndexMatches(groups, masks)
    ensures IndexMatches(groups[{} := groups[{}] + [|masks|]], masks + [{}])
  {
    var e := |masks|;
    var groups' := groups[{} := groups[{}] + [e]];
    var masks' := masks + [{}];
    assert multiset(groups[{}])[e] == 0 by {
      IndexCount(groups, masks, {}, e);
    }
    forall x | 0 <= x < |masks'|
      ensures masks'[x] in groups' && multiset(groups'[masks'[x]])[x] == 1
    {
      if x < e {
        assert masks'[x] == masks[x];
      }
    }
    forall m, i | m in groups' && 0 <= i < |groups'[m]|
      ensures groups'[m][i] < |masks'| && masks'[groups'[m][i]] == m
    {
      if m == {} && i == |groups[{}]| {
        assert groups'[m][i] == e;
      } else {
        assert groups'[m][i] == groups[m][i];
      }
    }
  }

  /**
    `register_component<CType>` (ecs.h:195-198): give the type an id if it
    has none and install a fresh, empty pool under that id.  Registering a
    type a second time replaces its pool, dropping every value it held.
  */
  function RegisterComponent<V>(s: Store<V>, t: TypeIds.TypeName): (r: Store<V>)
    ensures Registered(r, t) && Valid(r.pools[r.registry.ids[t]])
    ensures forall e :: 0 <= e < MAX_ENTITIES ==> !Present(r.pools[r.registry.ids[t]], e)
    ensures Abs(r.pools[r.registry.ids[t]]) == map[]
    ensures TypeIds.Extends(s.registry, r.registry) && TypeIds.IdOf(s.registry, t).0 == r.registry
    ensures r.pools.Keys == s.pools.Keys + {r.registry.ids[t]}
    ensures forall c :: c in s.pools && c != r.registry.ids[t] ==> r.pools[c] == s.pools[c]
    ensures r.entityCount == s.entityCount && r.entityMask == s.entityMask
    ensures r.systemMask == s.systemMask && r.groups == s.groups
  {
    var (reg, c) := TypeIds.IdOf(s.registry, t);
    s.(registry := reg, pools := s.pools[c := Empty()])
  }

  lemma RegisterComponentPreservesInv<V>(s: Store<V>, t: TypeIds.TypeName)
    requires Inv(s) && !Registered(s, t)
    ensures Inv(RegisterComponent(s, t))
  {
    var r := RegisterComponent(s, t);
    var c := r.registry.ids[t];
    assert c !in s.pools;
    forall e, c' | 0 <= e < |r.entityMask| && c' in r.entityMask[e]
      ensures Holds(r, c', e)
    {
      assert Holds(s, c', e);
    }
    forall c': nat, e: nat | Holds(r, c', e)
      ensures e < |r.entityMask| && c' in r.entityMask[e]
    {
      assert Holds(s, c', e);
    }
  }

  /**
    Registering a type again while an entity holds it leaves that entity's
    mask claiming a component its (new, empty) pool does not have.
  */
  lemma ReRegisterBreaksInv<V>(s: Store<V>, t: TypeIds.TypeName, e: nat)
    requires Inv(s) && Registered(s, t) && e < s.entityCount && s.registry.ids[t] in s.entityMask[e]
    ensures !Inv(RegisterComponent(s, t))
  {
    var r := RegisterComponent(s, t);
    var c := s.registry.ids[t];
    assert Holds(s, c, e);
    assert r.registry.ids[t] == c;
    assert !Holds(r, c, e);
  }

  /**
    `register_system` (ecs.h:200-203): the mask is appended; the system's
    index is its position in that sequence, whatever id the caller passed.
  */
  function RegisterSystem<V>(s: Store<V>, sysId: nat, mask: Mask): (r: Store<V>)
    ensures |r.systemMask| == |s.systemMask| + 1
    ensures r.systemMask[..|s.systemMask|] == s.systemMask && r.systemMask[|s.systemMask|] == mask
    ensures r == s.(systemMask := r.systemMask)
    ensures Inv(s) ==> Inv(r)
  {
    s.(systemMask := s.systemMask + [mask])
  }

  /**
    `add_component<CType>` (ecs.h:205-220): write the value into the type's
    pool, move the entity from the group of its old mask to the group of
    the old mask plus the type's id, and record the new mask.  The source
    does not check that the type was registered or that the entity exists.
  */
  function AddComponent<V>(s: Store<V>, t: TypeIds.TypeName, e: nat, v: V): (r: Store<V>)
    requires Registered(s, t) && Valid(s.pools[s.registry.ids[t]])
    requires e < |s.entityMask| && e < MAX_ENTITIES
    ensures var c := s.registry.ids[t];
      && r.entityMask == s.entityMask[e := s.entityMask[e] + {c}]
      && r.pools.Keys == s.pools.Keys
      && Valid(r.pools[c])
      && Abs(r.pools[c]) == Abs(s.pools[c])[e := v]
      && (forall c' :: c' in s.pools && c' != c ==> r.pools[c'] == s.pools[c'])
    ensures r.entityCount == s.entityCount && r.registry == s.registry && r.systemMask == s.systemMask
    ensures r.groups == MoveEntity(s.groups, e, s.entityMask[e], r.entityMask[e])
  {
    var c := s.registry.ids[t];
    var pool := Set(s.pools[c], e, v);
    var mask := s.entityMask[e] + {c};
    s.(pools := s.pools[c := pool],
       entityMask := s.entityMask[e := mask],
       groups := MoveEntity(s.groups, e, s.entityMask[e], mask))
  }

  lemma AddComponentPreservesInv<V>(s: Store<V>, t: TypeIds.TypeName, e: nat, v: V)
    requires Inv(s) && Registered(s, t) && e < s.entityCount && e < MAX_ENTITIES
    ensures Inv(AddComponent(s, t, e, v))
  {
    var r := AddComponent(s, t, e, v);
    AddComponentKeepsMasksMatchPools(s, t, e, v);
    MoveKeepsIndex(s.groups, s.entityMask, e, r.entityMask[e]);
  }

  /** Moving an entity to the group of its new mask keeps the index in agreement with the masks. */
  lemma MoveKeepsIndex(groups: map<Mask, seq<nat>>, masks: seq<Mask>, e: nat, to: Mask)
    requires IndexMatches(groups, masks) && e < |masks|
    ensures IndexMatches(MoveEntity(groups, e, masks[e], to), masks[e := to])
  {
    var r := MoveEntity(groups, e, masks[e], to);
    var masks' := masks[e := to];
    MoveKeepsOccurrences(groups, masks, e, to);
    MoveKeepsMembers(groups, masks, e, to);
    forall x | 0 <= x < |masks'|
      ensures masks'[x] in r && multiset(r[masks'[x]])[x] == 1
    {
      if x != e {
        assert masks'[x] == masks[x];
      }
    }
  }

  lemma MoveKeepsOccurrences(groups: map<Mask, seq<nat>>, masks: seq<Mask>, e: nat, to: Mask)
    requires IndexMatches(groups, masks) && e < |masks|
    ensures var r := MoveEntity(groups, e, masks[e], to);
      && to in r && multiset(r[to])[e] == 1
      && forall x :: 0 <= x < |masks| && x != e ==> masks[x] in r && multiset(r[masks[x]])[x] == 1
  {
    var from := masks[e];
    var r := MoveEntity(groups, e, from, to);
    if to != from && to in groups {
      IndexCount(groups, masks, to, e);
    }
    forall x | 0 <= x < |masks| && x != e
      ensures masks[x] in r && multiset(r[masks[x]])[x] == 1
    {
      IndexCount(groups, masks, masks[x], x);
    }
  }

  lemma MoveKeepsMembers(groups: map<Mask, seq<nat>>, masks: seq<Mask>, e: nat, to: Mask)
    requires IndexMatches(groups, masks) && e < |masks|
    ensures var r := MoveEntity(groups, e, masks[e], to);
      forall m, i :: m in r && 0 <= i < |r[m]| ==>
        r[m][i] < |masks| && masks[e := to][r[m][i]] == m
  {
    var from := masks[e];
    var r := MoveEntity(groups, e, from, to);
    var masks' := masks[e := to];
    forall m, i | m in r && 0 <= i < |r[m]|
      ensures r[m][i] < |masks'| && masks'[r[m][i]] == m
    {
      var y := r[m][i];
      assert multiset(r[m])[y] > 0;
      if m in groups {
        IndexCount(groups, masks, m, y);
      }
      if y != e && (m == from || m == to) {
        assert multiset(Group(groups, m))[y] > 0;
      }
    }
  }

  lemma AddComponentKeepsMasksMatchPools<V>(s: Store<V>, t: TypeIds.TypeName, e: nat, v: V)
    requires Inv(s) && Registered(s, t) && e < s.entityCount && e < MAX_ENTITIES
    ensures var r := AddComponent(s, t, e, v);
      PoolsWellFormed(r) && MasksMatchPools(r)
  {
    AddComponentMaskedAreHeld(s, t, e, v);
    AddComponentHeldAreMasked(s, t, e, v);
  }

  /** After `add_component`, every bit of every mask names a pool holding the entity. */
  lemma AddComponentMaskedAreHeld<V>(s: Store<V>, t: TypeIds.TypeName, e: nat, v: V)
    requires Inv(s) && Registered(s, t) && e < s.entityCount && e < MAX_ENTITIES
    ensures var r := AddComponent(s, t, e, v);
      forall x: nat, c': nat :: x < |r.entityMask| && c' in r.entityMask[x] ==> Holds(r, c', x)
  {
    var r := AddComponent(s, t, e, v);
    var c := s.registry.ids[t];
    forall x: nat, c': nat | x < |r.entityMask| && c' in r.entityMask[x]
      ensures Holds(r, c', x)
    {
      if c' != c {
        assert Holds(s, c', x);
      } else if x != e {
        assert Holds(s, c', x);
        assert x in Abs(s.pools[c]);
      }
    }
  }

  /** After `add_component`, every pool holding an entity is named in that entity's mask. */
  lemma AddComponentHeldAreMasked<V>(s: Store<V>, t: TypeIds.TypeName, e: nat, v: V)
    requires Inv(s) && Registered(s, t) && e < s.entityCount && e < MAX_ENTITIES
    ensures var r := AddComponent(s, t, e, v);
      forall c': nat, x: nat :: Holds(r, c', x) ==> x < |r.entityMask| && c' in r.entityMask[x]
  {
    var r := AddComponent(s, t, e, v);
    var c := s.registry.ids[t];
    forall c': nat, x: nat | Holds(r, c', x)
      ensures x < |r.entityMask| && c' in r.entityMask[x]
    {
      if c' != c {
        assert Holds(s, c', x);
      } else if x != e {
        assert x in Abs(r.pools[c]);
        assert Holds(s, c', x);
      }
    }
  }

  /**
    `match_mask` (ecs.h:222-227): the system's mask is a subset of the
    entity's, that is, the entity holds every component the system requires.
  */
  function MatchMask<V>(s: Store<V>, e: nat, sys: nat): (r: bool)
    requires e < |s.entityMask| && sys < |s.systemMask|
    ensures Inv(s) ==> (r <==> forall c :: c in s.systemMask[sys] ==> Holds(s, c, e))
  {
    s.systemMask[sys] <= s.entityMask[e]
  }

  /**
    `get_component<CType>` (ecs.h:229-233): the entity's value in the type's
    pool, None when it has none.
  */
  function GetComponent<V>(s: Store<V>, t: TypeIds.TypeName, e: nat): (r: Option<V>)
    requires Registered(s, t) && Valid(s.pools[s.registry.ids[t]]) && e < MAX_ENTITIES
    ensures r.Some? <==> e in Abs(s.pools[s.registry.ids[t]])
    ensures r.Some? ==> r.value == Abs(s.pools[s.registry.ids[t]])[e]
    ensures Inv(s) ==> (r.Some? <==> e < s.entityCount && s.registry.ids[t] in s.entityMask[e])
  {
    HoldsIffInMask(s, s.registry.ids[t], e);
    Get(s.pools[s.registry.ids[t]], e)
  }

  /** Under the invariant, holding a component and carrying its bit are the same thing. */
  lemma HoldsIffInMask<V>(s: Store<V>, c: nat, e: nat)
    ensures Inv(s) ==> (Holds(s, c, e) <==> e < s.entityCount && c in s.entityMask[e])
  {
  }

  /**
    Round trip: after attaching `v` of type `t` to `e`, `get_component`
    returns `v` for (`t`, `e`) and what it returned before for every other
    type and entity.
  */
  lemma AttachThenGet<V>(s: Store<V>, t: TypeIds.TypeName, e: nat, v: V, t': TypeIds.TypeName, e': nat)
    requires Inv(s) && Registered(s, t) && e < s.entityCount && e < MAX_ENTITIES
    requires Registered(s, t') && e' < MAX_ENTITIES
    ensures var r := AddComponent(s, t, e, v);
      Registered(r, t') && Valid(r.pools[r.registry.ids[t']])
      && GetComponent(r, t', e') == if t' == t && e' == e then Some(v) else GetComponent(s, t', e')
  {
    var r := AddComponent(s, t, e, v);
    AddComponentPreservesInv(s, t, e, v);
    if t' != t {
      assert s.registry.ids[t'] != s.registry.ids[t];
    }
  }

  /**
    Attaching a type the entity already holds overwrites its value in place:
    the masks and the pool's size do not change, and the entity still occurs
    once, in its own group.
  */
  lemma ReAttachKeepsSignature<V>(s: Store<V>, t: TypeIds.TypeName, e: nat, v: V)
    requires Inv(s) && Registered(s, t) && e < s.entityCount && e < MAX_ENTITIES
    requires s.registry.ids[t] in s.entityMask[e]
    ensures var r := AddComponent(s, t, e, v);
      && r.entityMask == s.entityMask
      && |r.pools[s.registry.ids[t]].dense| == |s.pools[s.registry.ids[t]].dense|
      && multiset(r.groups[s.entityMask[e]])[e] == 1
      && r.groups.Keys == s.groups.Keys
  {
    var c := s.registry.ids[t];
    assert Holds(s, c, e);
    assert s.entityMask[e] + {c} == s.entityMask[e];
  }
}

=== FILE: type_ids.dfy ===
/**
  The component type registry behind `get_c_id<CType>()` (ecs.h:184-193).

  The source hands out ids from one counter on a type's first use and
  memoizes them in a per-type static.  Here the memo is an explicit map from
  a type's name to its id, owned by the store, and the counter is `next`.
*/
module TypeIds {

  /** A component type, identified by its name. */
  type TypeName = string

  datatype Registry = Registry(ids: map<TypeName, nat>, next: nat)

  /** Ids come from the counter and no two types share one. */
  ghost predicate Valid(reg: Registry) {
    && (forall t :: t in reg.ids ==> reg.ids[t] < reg.next)
    && (forall t1, t2 :: t1 in reg.ids && t2 in reg.ids && reg.ids[t1] == reg.ids[t2] ==> t1 == t2)
  }

  /** `reg2` keeps every id `reg1` handed out, and its counter has not gone back. */
  ghost predicate Extends(reg1: Registry, reg2: Registry) {
    && reg1.next <= reg2.next
    && forall t :: t in reg1.ids ==> t in reg2.ids && reg2.ids[t] == reg1.ids[t]
  }

  function Empty(): (r: Registry)
    ensures Valid(r) && r.ids == map[] && r.next == 0
  {
    Registry(map[], 0)
  }

  /**
    `get_c_id<CType>()`: the memoized id of `t`, drawing the next counter
    value the first time `t` is seen.
  */
  function IdOf(reg: Registry, t: TypeName): (r: (Registry, nat))
    ensures t in r.0.ids && r.0.ids[t] == r.1
    ensures Extends(reg, r.0)
    ensures r.0.ids.Keys == reg.ids.Keys + {t}
    ensures t in reg.ids ==> r.0 == reg
    ensures t !in reg.ids ==> r.1 == reg.next && r.0.next == reg.next + 1
    ensures Valid(reg) ==> Valid(r.0)
  {
    if t in reg.ids then (reg, reg.ids[t])
    else (Registry(reg.ids[t := reg.next], reg.next + 1), reg.next)
  }

  /** The types a list names. */
  function Names(ts: seq<TypeName>): (r: set<TypeName>)
    ensures forall t :: t in r <==> t in ts
  {
    set t | t in ts
  }

  /**
    `get_c_mask<Cs...>()` (ecs.h:160-170): the set of the ids of the listed
    types, assigning ids left to right to the types not seen before.
  */
  function CMask(reg: Registry, ts: seq<TypeName>): (r: (Registry, set<nat>))
    ensures Extends(reg, r.0)
    ensures Valid(reg) ==> Valid(r.0)
    ensures forall i :: 0 <= i < |ts| ==> ts[i] in r.0.ids
    ensures forall c :: c in r.1 <==> exists i :: 0 <= i < |ts| && r.0.ids[ts[i]] == c
    decreases |ts|
  {
    if ts == [] then (reg, {})
    else
      var (reg1, c) := IdOf(reg, ts[0]);
      var (reg2, m) := CMask(reg1, ts[1..]);
      assert forall i :: 1 <= i < |ts| ==> ts[i] == ts[1..][i - 1];
      MaskCons(reg2.ids, ts, ts[1..], c, m);
      (reg2, {c} + m)
  }

  /** The ids of a list are the id of its head together with the ids of its tail. */
  lemma MaskCons(ids: map<TypeName, nat>, ts: seq<TypeName>, tail: seq<TypeName>, c: nat, m: set<nat>)
    requires |ts| > 0 && tail == ts[1..] && forall i :: 0 <= i < |ts| ==> ts[i] in ids
    requires ids[ts[0]] == c
    requires forall c' :: c' in m <==> exists i :: 0 <= i < |tail| && ids[tail[i]] == c'
    ensures forall c' :: c' in {c} + m <==> exists i :: 0 <= i < |ts| && ids[ts[i]] == c'
  {
    forall c' | c' in {c} + m
      ensures exists i :: 0 <= i < |ts| && ids[ts[i]] == c'
    {
      if c' != c {
        var j :| 0 <= j < |tail| && ids[tail[j]] == c';
        assert ids[ts[j + 1]] == c';
      }
    }
    forall c' | exists i :: 0 <= i < |ts| && ids[ts[i]] == c'
      ensures c' in {c} + m
    {
      var i :| 0 <= i < |ts| && ids[ts[i]] == c';
      if i > 0 {
        assert ids[tail[i - 1]] == c';
      }
    }
  }

  /** Only the listed types gain ids. */
  lemma {:induction false} CMaskKeys(reg: Registry, ts: seq<TypeName>)
    ensures CMask(reg, ts).0.ids.Keys == reg.ids.Keys + Names(ts)
    decreases |ts|
  {
    if ts != [] {
      CMaskKeys(IdOf(reg, ts[0]).0, ts[1..]);
      assert Names(ts) == {ts[0]} + Names(ts[1..]);
    }
  }

  /** A list of types that all have ids leaves the registry as it was. */
  lemma {:induction false} CMaskKnown(reg: Registry, ts: seq<TypeName>)
    requires forall i :: 0 <= i < |ts| ==> ts[i] in reg.ids
    ensures CMask(reg, ts).0 == reg
    decreases |ts|
  {
    if ts != [] {
      assert IdOf(reg, ts[0]).0 == reg;
      assert forall i :: 0 <= i < |ts[1..]| ==> ts[1..][i] == ts[i + 1];
      CMaskKnown(reg, ts[1..]);
    }
  }
}

=== FILE: view.dfy ===
/**
  Views: `ecs_t::get_view` (ecs.h:241-245) and `view_t::for_each`
  (ecs.h:127-140).

  A view remembers the ids of its component types and the target mask, the
  union of those ids.  `for_each` walks every group whose key is a superset
  of the target and hands the callback each entity's components, fetched
  with the unchecked `get_ref`.  The source walks an `unordered_map`, whose
  order is unspecified; here the walk follows `keys`, which may be any
  duplicate-free listing of the index's keys, and every result is stated for
  all such listings.
*/
module Views {
  import opened Wrappers
  import opened SparseSet
  import TypeIds
  import opened Ecs

  datatype View = View(ids: seq<nat>, target: Mask)

  /** The target mask is exactly the set of the view's component ids. */
  ghost predicate ViewValid(v: View) {
    forall c :: c in v.target <==> c in v.ids
  }

  /** `keys` lists every key of `ks` once. */
  ghost predicate Enumerates(keys: seq<Mask>, ks: set<Mask>) {
    && Distinct(keys)
    && (forall k :: k in ks <==> k in keys)
  }

  /**
    Some listing of a set of keys: the order in which an unordered map
    happens to walk its buckets, chosen arbitrarily.
  */
  method ListKeys(ks: set<Mask>) returns (keys: seq<Mask>)
    ensures Enumerates(keys, ks)
  {
    keys := [];
    var rest := ks;
    while rest != {}
      invariant rest <= ks
      invariant Distinct(keys)
      invariant forall k :: k in ks <==> k in rest || k in keys
      invariant forall k :: k in rest ==> k !in keys
      decreases rest
    {
      var k :| k in rest;
      keys := keys + [k];
      rest := rest - {k};
    }
  }

  /** Entity `e` exists and its mask is a superset of the view's target (line 132's test). */
  ghost predicate Matches<V>(s: Store<V>, v: View, e: nat) {
    e < |s.entityMask| && v.target <= s.entityMask[e]
  }

  /**
    `get_view<Cs...>`: compute the target mask (assigning ids to types not
    seen before) and look up each listed type's id.
  */
  function GetView<V>(s: Store<V>, ts: seq<TypeIds.TypeName>): (r: (Store<V>, View))
    ensures r.0 == s.(registry := r.0.registry)
    ensures TypeIds.Extends(s.registry, r.0.registry)
    ensures |r.1.ids| == |ts|
    ensures forall i :: 0 <= i < |ts| ==> ts[i] in r.0.registry.ids && r.1.ids[i] == r.0.registry.ids[ts[i]]
    ensures ViewValid(r.1)
    ensures (forall i :: 0 <= i < |ts| ==> ts[i] in s.registry.ids) ==> r.0 == s
  {
    var (reg, mask) := TypeIds.CMask(s.registry, ts);
    var ids := seq(|ts|, i requires 0 <= i < |ts| => reg.ids[ts[i]]);
    // With every type already known the registry is left as it was.
    if forall i :: 0 <= i < |ts| ==> ts[i] in s.registry.ids then
      TypeIds.CMaskKnown(s.registry, ts);
      (s, View(ids, mask))
    else
      (s.(registry := reg), View(ids, mask))
  }

  /** Computing a view only draws fresh type ids, which keeps the store invariant. */
  lemma GetViewPreservesInv<V>(s: Store<V>, ts: seq<TypeIds.TypeName>)
    requires Inv(s)
    ensures Inv(GetView(s, ts).0)
  {
    var r := GetView(s, ts).0;
    assert forall c: nat, e: nat :: Holds(r, c, e) <==> Holds(s, c, e);
  }

  /** The entities of the groups, taken in the order of `keys`, whose key is a superset of `target`. */
  function Matching(groups: map<Mask, seq<nat>>, keys: seq<Mask>, target: Mask): seq<nat>
    requires forall i :: 0 <= i < |keys| ==> keys[i] in groups
  {
    if keys == [] then []
    else (if target <= keys[0] then groups[keys[0]] else []) + Matching(groups, keys[1..], target)
  }

  lemma {:induction false} MatchingCount(groups: map<Mask, seq<nat>>, masks: seq<Mask>, keys: seq<Mask>, target: Mask)
    requires IndexMatches(groups, masks)
    requires forall i :: 0 <= i < |keys| ==> keys[i] in groups
    requires Distinct(keys)
    ensures forall e: nat :: multiset(Matching(groups, keys, target))[e] == (if e < |masks| && target <= masks[e] && masks[e] in keys then 1 else 0)
  {
    if keys != [] {
      var k := keys[0];
      var head := if target <= k then groups[k] else [];
      var rest := keys[1..];
      MatchingCount(groups, masks, rest, target);
      assert Matching(groups, keys, target) == head + Matching(groups, rest, target);
      forall e: nat
        ensures multiset(Matching(groups, keys, target))[e] ==
          (if e < |masks| && target <= masks[e] && masks[e] in keys then 1 else 0)
      {
        IndexCount(groups, masks, k, e);
        assert k !in rest;
        if e < |masks| && masks[e] in keys && masks[e] != k {
          assert masks[e] in rest;
        }
      }
    }
  }

  /**
    The entities `for_each` visits: each entity whose mask is a superset of
    the view's target occurs exactly once, and no other entity occurs.
  */
  function Visit<V>(s: Store<V>, v: View, keys: seq<Mask>): (r: seq<nat>)
    requires Inv(s) && Enumerates(keys, s.groups.Keys)
    ensures forall e :: multiset(r)[e] == if Matches(s, v, e) then 1 else 0
  {
    MatchingCount(s.groups, s.entityMask, keys, v.target);
    Matching(s.groups, keys, v.target)
  }

  /** A matching entity exists and carries every id of a valid view. */
  lemma MatchingCarriesIds<V>(s: Store<V>, v: View, e: nat)
    requires Inv(s) && ViewValid(v) && Matches(s, v, e)
    ensures e < s.entityCount
    ensures forall i :: 0 <= i < |v.ids| ==> v.ids[i] in s.entityMask[e]
  {
    forall i | 0 <= i < |v.ids|
      ensures v.ids[i] in s.entityMask[e]
    {
      assert v.ids[i] in v.target;
    }
  }

  /**
    The component values `make_c_tuple` hands the callback (ecs.h:114-117):
    one `get_ref` per listed id.  Its precondition is the fact that makes
    each unchecked `get_ref` safe: the entity's mask carries every id.
  */
  function Resolve<V>(s: Store<V>, ids: seq<nat>, e: nat): (r: seq<V>)
    requires Inv(s) && e < s.entityCount
    requires forall i :: 0 <= i < |ids| ==> ids[i] in s.entityMask[e]
    ensures |r| == |ids|
    ensures forall i :: 0 <= i < |ids| ==>
      ids[i] in s.pools && e < MAX_ENTITIES && Get(s.pools[ids[i]], e) == Some(r[i])
    decreases |ids|
  {
    if ids == [] then []
    else
      assert Holds(s, ids[0], e);
      [GetRef(s.pools[ids[0]], e)] + Resolve(s, ids[1..], e)
  }

  lemma ResolveFrame<V>(s: Store<V>, s': Store<V>, ids: seq<nat>, e: nat)
    requires Inv(s) && Inv(s') && e < s.entityCount && e < MAX_ENTITIES
    requires s'.entityCount == s.entityCount && s'.entityMask == s.entityMask
    requires forall i :: 0 <= i < |ids| ==> ids[i] in s.entityMask[e]
    requires forall i :: 0 <= i < |ids| ==>
      ids[i] in s.pools && ids[i] in s'.pools && Get(s'.pools[ids[i]], e) == Get(s.pools[ids[i]], e)
    ensures Resolve(s', ids, e) == Resolve(s, ids, e)
  {
    var a := Resolve(s, ids, e);
    var b := Resolve(s', ids, e);
    assert forall i :: 0 <= i < |ids| ==> Some(a[i]) == Some(b[i]);
  }

  /** `r` differs from `s` at most in the values its pools store. */
  ghost predicate SameShape<V>(s: Store<V>, r: Store<V>) {
    && r.entityCount == s.entityCount && r.registry == s.registry
    && r.entityMask == s.entityMask && r.systemMask == s.systemMask
    && r.groups == s.groups && r.pools.Keys == s.pools.Keys
  }

  /**
    The callback's assignment through the reference `get_ref` returned: the
    slot's value changes and nothing structural does.
  */
  function WriteBack<V>(s: Store<V>, c: nat, e: nat, x: V): (r: Store<V>)
    requires Inv(s) && Holds(s, c, e)
    ensures Inv(r)
    ensures SameShape(s, r)
    ensures Abs(r.pools[c]) == Abs(s.pools[c])[e := x]
    ensures forall c' :: c' in s.pools && c' != c ==> r.pools[c'] == s.pools[c']
  {
    var r := s.(pools := s.pools[c := Set(s.pools[c], e, x)]);
    assert forall c': nat, x': nat :: Holds(r, c', x') <==> Holds(s, c', x');
    r
  }

  lemma MatchesFrame<V>(s: Store<V>, s': Store<V>, v: View, es: seq<nat>)
    requires SameShape(s, s') && |es| > 0
    requires forall x :: x in es ==> Matches(s, v, x)
    ensures forall x :: x in es[1..] ==> Matches(s', v, x)
  {
    forall x | x in es[1..]
      ensures Matches(s', v, x)
    {
      assert x in es;
    }
  }

  /** Run the callback over `es` in order, writing its result into the view's `k`-th component. */
  function Apply<V>(s: Store<V>, v: View, k: nat, f: seq<V> -> V, es: seq<nat>): (r: Store<V>)
    requires Inv(s) && ViewValid(v) && k < |v.ids|
    requires forall x :: x in es ==> Matches(s, v, x)
    ensures Inv(r)
    ensures SameShape(s, r)
    ensures forall c :: c in s.pools && c != v.ids[k] ==> r.pools[c] == s.pools[c]
    decreases |es|
  {
    if es == [] then s
    else
      var e := es[0];
      var c := v.ids[k];
      assert e in es;
      MatchingCarriesIds(s, v, e);
      var vals := Resolve(s, v.ids, e);
      assert Holds(s, c, e);
      var s' := WriteBack(s, c, e, f(vals));
      MatchesFrame(s, s', v, es);
      Apply(s', v, k, f, es[1..])
  }

  lemma {:induction false} ApplyEffect<V>(s: Store<V>, v: View, k: nat, f: seq<V> -> V, es: seq<nat>)
    requires Inv(s) && ViewValid(v) && k < |v.ids|
    requires forall x :: x in es ==> Matches(s, v, x)
    requires Distinct(es)
    ensures var r := Apply(s, v, k, f, es);
      v.ids[k] in s.pools ==> forall x :: 0 <= x < MAX_ENTITIES ==>
        Get(r.pools[v.ids[k]], x) ==
          if x in es then Some(f(Resolve(s, v.ids, x))) else Get(s.pools[v.ids[k]], x)
    decreases |es|
  {
    if es != [] {
      var e := es[0];
      var c := v.ids[k];
      assert e in es;
      MatchingCarriesIds(s, v, e);
      var vals := Resolve(s, v.ids, e);
      assert Holds(s, c, e);
      var s' := WriteBack(s, c, e, f(vals));
      var rest := es[1..];
      DistinctTail(es);
      MatchesFrame(s, s', v, es);
      forall x | 0 <= x < MAX_ENTITIES && x in rest
        ensures (MatchingCarriesIds(s, v, x); Resolve(s', v.ids, x) == Resolve(s, v.ids, x))
      {
        ResolveAfterWriteBack(s, v, c, e, f(vals), x);
      }
      ApplyEffect(s', v, k, f, rest);
    }
  }

  /** Dropping the head of a duplicate-free sequence leaves a duplicate-free tail without it. */
  lemma DistinctTail(es: seq<nat>)
    requires |es| > 0 && Distinct(es)
    ensures es[0] !in es[1..]
    ensures Distinct(es[1..])
  {
    forall i, j | 0 <= i < j < |es[1..]|
      ensures es[1..][i] != es[1..][j]
    {
      assert es[1..][i] == es[i + 1] && es[1..][j] == es[j + 1];
    }
  }

  /** Writing entity `e`'s value leaves what any other matching entity resolves to unchanged. */
  lemma ResolveAfterWriteBack<V>(s: Store<V>, v: View, c: nat, e: nat, y: V, x: nat)
    requires Inv(s) && ViewValid(v) && Holds(s, c, e)
    requires Matches(s, v, x) && x != e && x < MAX_ENTITIES
    ensures (MatchingCarriesIds(s, v, x); Resolve(WriteBack(s, c, e, y), v.ids, x) == Resolve(s, v.ids, x))
  {
    MatchingCarriesIds(s, v, x);
    ResolveFrame(s, WriteBack(s, c, e, y), v.ids, x);
  }

  lemma VisitedAreMatching<V>(s: Store<V>, v: View, es: seq<nat>)
    requires forall e :: multiset(es)[e] == if Matches(s, v, e) then 1 else 0
    ensures forall e :: e in es <==> Matches(s, v, e)
    ensures Distinct(es)
  {
    forall e
      ensures e in es <==> Matches(s, v, e)
    {
      assert e in es <==> multiset(es)[e] > 0;
    }
    forall i, j | 0 <= i < j < |es|
      ensures es[i] != es[j]
    {
      if es[i] == es[j] {
        TwoOccurrences(es, i, j);
      }
    }
  }

  /** An element found at two positions occurs at least twice. */
  lemma TwoOccurrences(es: seq<nat>, i: nat, j: nat)
    requires i < j < |es| && es[i] == es[j]
    ensures multiset(es)[es[i]] >= 2
  {
    assert es == es[..j] + es[j..];
    assert es[i] in es[..j] && es[j] in es[j..];
  }

  /** Every component of a valid view is present for every matching entity. */
  lemma MatchingHoldAll<V>(s: Store<V>, v: View)
    requires Inv(s) && ViewValid(v)
    ensures forall e, i :: Matches(s, v, e) && 0 <= i < |v.ids| ==> Holds(s, v.ids[i], e)
  {
    forall e, i | Matches(s, v, e) && 0 <= i < |v.ids|
      ensures Holds(s, v.ids[i], e)
    {
      MatchingCarriesIds(s, v, e);
    }
  }

  /**
    `view_t::for_each` with a callback that computes a new value for the
    view's `k`-th component from all of the entity's view components.
    Returns the entities visited, in visiting order, and the updated store.
  */
  function ForEach<V>(s: Store<V>, v: View, keys: seq<Mask>, k: nat, f: seq<V> -> V): (r: (seq<nat>, Store<V>))
    requires Inv(s) && ViewValid(v) && k < |v.ids| && Enumerates(keys, s.groups.Keys)
    ensures forall e :: multiset(r.0)[e] == if Matches(s, v, e) then 1 else 0
    ensures forall e, i :: e in r.0 && 0 <= i < |v.ids| ==> Holds(s, v.ids[i], e)
    ensures Inv(r.1) && SameShape(s, r.1)
    ensures forall c :: c in s.pools && c != v.ids[k] ==> r.1.pools[c] == s.pools[c]
    ensures v.ids[k] in s.pools ==> forall e :: 0 <= e < MAX_ENTITIES ==>
      Get(r.1.pools[v.ids[k]], e) ==
        if Matches(s, v, e) then Some(f(Resolve(s, v.ids, e))) else Get(s.pools[v.ids[k]], e)
  {
    var es := Visit(s, v, keys);
    VisitedAreMatching(s, v, es);
    MatchingHoldAll(s, v);
    ApplyEffect(s, v, k, f, es);
    (es, Apply(s, v, k, f, es))
  }

  /**
    The two query paths agree: with a system registered under the view's
    target mask, `for_each` visits an entity exactly when `match_mask`
    accepts it (ecs.h:132 and ecs.h:223 apply the same superset test).
  */
  lemma QueryPathsAgree<V>(s: Store<V>, v: View, keys: seq<Mask>, sys: nat, e: nat)
    requires Inv(s) && Enumerates(keys, s.groups.Keys)
    requires sys < |s.systemMask| && s.systemMask[sys] == v.target && e < s.entityCount
    ensures e in Visit(s, v, keys) <==> MatchMask(s, e, sys)
  {
    var es := Visit(s, v, keys);
    VisitedAreMatching(s, v, es);
  }
}

=== FILE: wrappers.dfy ===
/** The optional value that stands in for the nullable pointer a pool lookup returns. */
module Wrappers {

  datatype Option<+T> = None | Some(value: T)
}
